=== FILE: README.md ===
# ManufactureFlow session and user administration, modelled in Dafny

This project models the decision logic of the ManufactureFlow dashboard's
client-side authentication and user administration:

- **Session store** (`src/contexts/AuthContext.tsx`): the current user and the
  *hidden-transactions* flag, the mocked `login` against the fixed table of
  demo accounts, with the super admin's second password (`hide123`) that turns
  the flag on, `logout`, the effect that mirrors both values into
  `localStorage` under the keys `user` and `canSeeHiddenTransactions`, and the
  restoration of both when the app starts.
- **User management view** (`src/components/Users/UsersList.tsx`): delete,
  toggle active, edit and add on the in-memory user list, the search box, the
  gate that only lets super admins and admins in, and the five role sections.
- **Login form** (`src/components/Auth/LoginForm.tsx`): how the typed email
  and password become a `login` call (or none), and the error message and
  navigation that follow. `SubmitToSession` wires it to the session store.

Every React state update is one pure transition. The storage effect is the
function `Session.Commit`: it runs `Persist` after a render in which the user
or the flag changed. The browser storage is a `map<string, string>`. The
JSON text of a stored user is produced by `Json.EncodeUser`, which follows
`JSON.stringify`, and is read back by `Json.DecodeUser`. `window.confirm`,
`Date.now()` and `new Date().toISOString()` are inputs. Navigation is an
output value. The `login` call is a function parameter of
`LoginForm.HandleSubmit`.

Modules: `Options` (Option/Result), `Strings` (lower-casing, `trim`,
`includes`, decimal text), `Seqs` (`filter` and conditional `map` on
sequences), `Users` (the `User` record and roles), `Json`, `Session`,
`UserAdmin`, `LoginForm`.

Two behaviours of the code are easy to misread:

- The comment at `logout` says it clears storage, and `logout` does remove
  both keys. But when the state changed, the effect then runs again and
  writes `canSeeHiddenTransactions` = `"false"`. So logging out of a live
  session leaves that key present as `"false"`. Logging out a second time
  changes no state, so the effect does not run and the key is removed.
  `Session.LogoutStep` and `Session.LogoutTwice` state this. The restored
  session is logged out either way.
- Persistence is not part of `login`. It is the separate effect, which also
  runs once when the app mounts (`Session.Startup`).

## Model

| member | source | states |
|---|---|---|
| `Strings.TrimStart` | src/components/Users/UsersList.tsx:140 | drops exactly the leading whitespace: the dropped prefix is all whitespace and the rest starts with a non-whitespace character |
| `Strings.TrimEnd` | src/components/Users/UsersList.tsx:140 | drops exactly the trailing whitespace, symmetrically |
| `Strings.TrimStartEmptyIff` | src/components/Users/UsersList.tsx:140 | trimming the start leaves nothing iff every character is whitespace |
| `Strings.IsBlank` | src/components/Users/UsersList.tsx:140 | definition of `!searchQuery.trim()` as "trimming leaves nothing"; its properties are in `Strings.BlankIffAllWhitespace` and `Strings.BlankUnderLower` |
| `Strings.BlankIffAllWhitespace` | src/components/Users/UsersList.tsx:140 | `!q.trim()` holds iff every character of the query is whitespace |
| `Strings.LowerKeepsWhitespace` | src/components/Users/UsersList.tsx:142 | lower-casing a character neither creates nor removes whitespace |
| `Strings.BlankUnderLower` | src/components/Users/UsersList.tsx:140-142 | a query is blank iff its lower-cased form is blank |
| `Strings.ToLower` | src/components/Users/UsersList.tsx:142-146 | `toLowerCase` keeps the length and lower-cases position by position (ASCII folding only, see "## Left out"); its properties are in `Strings.ToLowerIdempotent` and `Strings.BlankUnderLower` |
| `Strings.ToLowerIdempotent` | src/components/Users/UsersList.tsx:142-146 | lower-casing twice equals lower-casing once |
| `Strings.Contains` | src/components/Users/UsersList.tsx:144-146 | definition of `includes`; its properties are in `Strings.ContainsIffOccurs` |
| `Strings.ContainsIffOccurs` | src/components/Users/UsersList.tsx:144-146 | `s.includes(t)` holds iff `t` is a prefix of some suffix of `s` |
| `Strings.Decimal` | src/components/Users/UsersList.tsx:126 | `Date.now().toString()` is a non-empty string of digits with no leading zero |
| `Strings.DecimalRoundTrip` | src/components/Users/UsersList.tsx:126 | the decimal text of a timestamp reads back as that timestamp |
| `Strings.DecimalInjective` | src/components/Users/UsersList.tsx:126 | different timestamps give different new-user ids |
| `Seqs.Keep` | src/components/Users/UsersList.tsx:109 | `filter` never lengthens the list and everything it keeps passes the test |
| `Seqs.KeepIsSubseq` | src/components/Users/UsersList.tsx:109 | `filter` keeps the original order: the result is a subsequence |
| `Seqs.KeepMembers` | src/components/Users/UsersList.tsx:109 | an element is in the filtered list iff it is in the list and passes the test |
| `Seqs.KeepCount` | src/components/Users/UsersList.tsx:109 | every passing occurrence survives `filter` and no failing one does |
| `Seqs.KeepAppend` | src/components/Users/UsersList.tsx:134 | filtering a concatenation is concatenating the filtered parts |
| `Seqs.KeepAll` | src/components/Users/UsersList.tsx:109 | filtering a list that passes everywhere returns it unchanged |
| `Seqs.UpdateWhere` | src/components/Users/UsersList.tsx:114-116 | the conditional `map` keeps the length and rewrites exactly the entries that pass the test |
| `Seqs.SubseqReflexive` | src/components/Users/UsersList.tsx:140 | a list is a subsequence of itself, so a blank search shows a subsequence |
| `Seqs.SubseqTransitive` | src/components/Users/UsersList.tsx:160-164 | a subsequence of a subsequence is a subsequence |
| `Users.RoleFromName` | src/contexts/AuthContext.tsx:78 | a role read back from text spells that text |
| `Users.RoleNameRoundTrip` | src/contexts/AuthContext.tsx:78 | every role's spelling reads back as that role |
| `Json.HexRoundTrip` | src/contexts/AuthContext.tsx:88 | a hex digit written for a control character reads back as its value |
| `Json.ReadEscapedChar` | src/contexts/AuthContext.tsx:88 | every character's `JSON.stringify` escape reads back as that character |
| `Json.ReadEscapedBody` | src/contexts/AuthContext.tsx:88 | an escaped string body followed by a quote reads back as the string, leaving the rest |
| `Json.ReadQuoted` | src/contexts/AuthContext.tsx:88 | a quoted JSON string reads back as itself |
| `Json.ReadRoleArrayText` | src/contexts/AuthContext.tsx:88 | a JSON array of role names reads back as the list of roles |
| `Json.ReadUserTailText` | src/contexts/AuthContext.tsx:88 | the members after `role` (optional `roles`, `isActive`, `createdAt`) read back as written |
| `Json.EncodeUser` | src/contexts/AuthContext.tsx:88 | definition of `JSON.stringify(user)`; its properties are in `Json.DecodeEncode`, `Json.EncodeInjective` and `Json.EncodeStartsWithBrace` |
| `Json.DecodeUser` | src/contexts/AuthContext.tsx:78 | definition of `JSON.parse` of the stored user; its properties are in `Json.DecodeEncode` |
| `Json.DecodeEncode` | src/contexts/AuthContext.tsx:75-93 | `JSON.parse(JSON.stringify(u))` gives back `u` |
| `Json.EncodeInjective` | src/contexts/AuthContext.tsx:88 | distinct users are stored as distinct texts |
| `Json.EncodeStartsWithBrace` | src/contexts/AuthContext.tsx:78 | a stored user is never the empty (falsy) string and never `null` |
| `Session.FindActive` | src/contexts/AuthContext.tsx:100 | `find` returns the first entry whose email equals the given one and that is active, or reports that none is |
| `Session.MockUsers` | src/contexts/AuthContext.tsx:15-72 | definition of the demo-account table; its properties are in `Session.DemoAccountsLogIn` and `Session.SuperAdminEntry` |
| `Session.IsAuthenticated` | src/contexts/AuthContext.tsx:134 | definition of `isAuthenticated` as "a user is present"; its properties are in `Session.LoginStep` and `Session.LogoutStep` |
| `Session.Login` | src/contexts/AuthContext.tsx:95-121 | a wrong password fails and changes nothing; with the shared password login succeeds iff some active entry has the email, and then the user is the first such entry; a super admin sees hidden transactions iff the hiding password is `hide123`; everyone else never does |
| `Session.Persist` | src/contexts/AuthContext.tsx:86-93 | `user` holds the user's JSON when logged in and is absent otherwise; the flag key holds `"true"` or `"false"` matching the flag; other keys are untouched |
| `Session.Commit` | src/contexts/AuthContext.tsx:86-93 | definition of the effect's trigger: storage is rewritten only after a change of user or flag; its properties are in `Session.LoginStep`, `Session.LogoutStep` and `Session.LogoutTwice` |
| `Session.Rehydrate` | src/contexts/AuthContext.tsx:75-83 | the flag restores as true iff its key holds exactly `"true"`; a missing, empty or `null` user restores as logged out; start-up fails iff the stored user text is something else that does not parse; any other stored text comes back as the user it decodes to |
| `Session.RehydratePersist` | src/contexts/AuthContext.tsx:75-93 | restoring what `Persist` wrote gives back the same session |
| `Session.PersistIdempotent` | src/contexts/AuthContext.tsx:86-93 | writing the same session twice writes nothing new |
| `Session.Startup` | src/contexts/AuthContext.tsx:75-93 | mount fails iff the restore fails; otherwise the session is the restored one, a reload would restore it again, the storage holds the user's JSON under `user` (no key when logged out) and `"true"` or `"false"` under `canSeeHiddenTransactions`, and every key other than `user` and `canSeeHiddenTransactions` is as it was |
| `Session.LoginStep` | src/contexts/AuthContext.tsx:95-121 | login plus effect: a failure changes neither state nor storage; a success authenticates the first matching entry, sets the flag iff super admin with `hide123`, and leaves the storage restorable whenever it was restorable or the state changed; an unchanged state leaves the storage untouched, a changed one leaves the user's JSON under `user` and `"true"` or `"false"` under the flag key; every key other than `user` and `canSeeHiddenTransactions` is as it was |
| `Session.LogoutStep` | src/contexts/AuthContext.tsx:123-129 | afterwards nobody is logged in, the flag is off and no access rule lets the session in; `user` is gone; the flag key is `"false"` if the state changed and gone if not; other keys untouched; a reload restores the logged-out session |
| `Session.LogoutTwice` | src/contexts/AuthContext.tsx:123-129 | a second logout leaves the same session and the same restored state; its storage differs only by removing the flag key, which makes it differ whenever the first logout changed the state |
| `Session.DemoAccountsLogIn` | src/contexts/AuthContext.tsx:15-72 | every demo account logs in with `password123` as its own record, without hidden transactions |
| `Session.SuperAdminEntry` | src/contexts/AuthContext.tsx:15-23 | the super admin is the first entry found for its email and the only super-admin entry |
| `UserAdmin.DeleteUser` | src/components/Users/UsersList.tsx:107-111 | a declined prompt changes nothing; a confirmed one leaves the subsequence without the entries with that id, keeping every other occurrence |
| `UserAdmin.ToggleStatus` | src/components/Users/UsersList.tsx:113-117 | length kept; `isActive` flips exactly on the entries with the id; no other field of any entry changes |
| `UserAdmin.ToggleTwice` | src/components/Users/UsersList.tsx:113-117 | toggling the same id twice restores the list |
| `UserAdmin.MergeNoChanges` | src/components/Users/UsersList.tsx:122 | spreading an empty patch over a user leaves the user unchanged |
| `UserAdmin.MergeIdempotent` | src/components/Users/UsersList.tsx:122 | spreading the same patch twice equals spreading it once |
| `UserAdmin.Merge` | src/components/Users/UsersList.tsx:122 | definition of `{ ...u, ...userData }`; its properties are in `UserAdmin.MergeNoChanges`, `UserAdmin.MergeIdempotent` and `UserAdmin.SaveEdit` |
| `UserAdmin.SaveEdit` | src/components/Users/UsersList.tsx:120-123 | length kept; entries with the edited user's id get the patch merged in; all others are unchanged |
| `UserAdmin.SaveEditIdempotent` | src/components/Users/UsersList.tsx:120-123 | saving the same edit twice is saving it once, even when the patch changes the id |
| `UserAdmin.SaveEditNoChanges` | src/components/Users/UsersList.tsx:120-123 | saving an empty edit leaves the list unchanged |
| `UserAdmin.NewUser` | src/components/Users/UsersList.tsx:125-133 | definition of the record the add branch builds; its properties are in `UserAdmin.SaveNew` and `UserAdmin.DeleteAfterAdd` |
| `UserAdmin.SaveNew` | src/components/Users/UsersList.tsx:124-134 | exactly one user is appended after the unchanged list: active, id the decimal text of the timestamp (non-empty digits, no leading zero, reading back as the timestamp), role defaulting to `worker`, `roles` the one-element list of the role, email and name defaulting to empty, created at the given time |
| `UserAdmin.SaveUser` | src/components/Users/UsersList.tsx:119-135 | with no user being edited the result is the add branch (`UserAdmin.SaveNew`: one active user appended with the defaults filled in); while editing the length is kept, entries with the edited id get the patch merged in, and entries with another id are unchanged |
| `UserAdmin.DeleteAfterAdd` | src/components/Users/UsersList.tsx:107-134 | adding a user whose generated id is new, then deleting that id, gives back the original list |
| `UserAdmin.MatchesQuery` | src/components/Users/UsersList.tsx:143-147 | definition of the search test on name, email and role; its properties are in `UserAdmin.SearchUsers` and `Strings.ContainsIffOccurs` |
| `UserAdmin.SearchUsers` | src/components/Users/UsersList.tsx:139-148 | a blank query returns the list; otherwise a subsequence that keeps a user, with all its occurrences, iff its lower-cased name, email or role contains the lower-cased query |
| `UserAdmin.SearchCaseInsensitive` | src/components/Users/UsersList.tsx:142-147 | queries that differ only in letter case give the same result |
| `UserAdmin.SearchWhitespaceQuery` | src/components/Users/UsersList.tsx:140 | an all-whitespace query returns the list unchanged |
| `UserAdmin.CanManageUsers` | src/components/Users/UsersList.tsx:150 | definition of the gate; its properties are in `UserAdmin.ManageGateIsAccessRule` and `UserAdmin.DemoAccountsGate` |
| `UserAdmin.ManageGateIsAccessRule` | src/components/Users/UsersList.tsx:150 | the view opens iff someone is logged in with role super admin or admin, the general access rule with those roles; never when logged out |
| `UserAdmin.DemoAccountsGate` | src/components/Users/UsersList.tsx:150 | of the demo accounts only the super admin and the admin pass the gate |
| `UserAdmin.GroupByRole` | src/components/Users/UsersList.tsx:160-164 | definition of the five section filters; its properties are in `UserAdmin.SectionMembers`, `UserAdmin.SectionsPartition` and `UserAdmin.GroupSizes` |
| `UserAdmin.SectionTest` | src/components/Users/UsersList.tsx:160-164 | each section's filter accepts a user iff the user's role is listed in that section |
| `UserAdmin.SectionIsSubseq` | src/components/Users/UsersList.tsx:160-164 | each section is a subsequence of the filtered list |
| `UserAdmin.SectionMembers` | src/components/Users/UsersList.tsx:160-164 | a section holds every occurrence of the users of its roles and nothing else |
| `UserAdmin.SectionsPartition` | src/components/Users/UsersList.tsx:160-164 | the sections are disjoint, each listed non-customer is in its own section, and no customer is in any |
| `UserAdmin.GroupSizes` | src/components/Users/UsersList.tsx:160-164 | the five section sizes plus the number of customers equal the length of the filtered list |
| `UserAdmin.ShownSectionsAreSubsequences` | src/components/Users/UsersList.tsx:139-164 | every shown section is a subsequence of the whole user list |
| `LoginForm.IsSuperAdmin` | src/components/Auth/LoginForm.tsx:21 | definition: exact string equality with `superadmin@company.com`; its properties are in `LoginForm.PlanLogin` and `LoginForm.HiddenVisibilityThroughForm` |
| `LoginForm.PlanLogin` | src/components/Auth/LoginForm.tsx:31-43 | for the super admin, `password123` calls `login` with it alone and `hide123` calls it with `password123` and `hide123`; any other password makes no call; everyone else's password is passed unchanged |
| `LoginForm.HandleSubmit` | src/components/Auth/LoginForm.tsx:23-59 | success navigates to `/` with no error; a failure shows the invalid-credentials message except for the super admin, whose error stays empty; no call shows the super-admin password message; a throw shows the generic message; loading ends false |
| `LoginForm.SubmitToSession` | src/components/Auth/LoginForm.tsx:23-59 | through the session store: without navigation neither state nor storage changes; with it someone is logged in; the generic error never appears; storage stays restorable; an unchanged state leaves the storage untouched, a changed one leaves the user's JSON and the flag text stored; every key other than `user` and `canSeeHiddenTransactions` is as it was |
| `LoginForm.HiddenVisibilityThroughForm` | src/components/Auth/LoginForm.tsx:31-43 | after a successful form login the hidden transactions are visible iff the email is the super admin's and the typed password is `hide123` |
| `LoginForm.SuperAdminWithHidingPassword` | src/components/Auth/LoginForm.tsx:35-36 | the super admin typing `hide123` ends logged in as the super admin with the flag on, navigated home, and a reload keeps it |
| `LoginForm.SuperAdminWithSharedPassword` | src/components/Auth/LoginForm.tsx:33-34 | the super admin typing `password123` ends logged in as the super admin with the flag off |
| `LoginForm.SuperAdminWrongPassword` | src/components/Auth/LoginForm.tsx:37-39 | any other super-admin password makes no call, changes nothing and shows the super-admin password message |

## Left out

- Rendering, styling, icons, dialogs, the demo-account panel and `getRoleColor`: presentation only.
- `src/App.tsx` routing and provider nesting. Its one decision, showing the form unless `isAuthenticated`, is `Session.IsAuthenticated`.
- `src/components/Orders/OrderDetails.tsx`: display with locale-dependent formatting.
- `toast`, `console.log` and the `async`/`Promise` shape of `login`: each submit is one synchronous step, and the intermediate `loading = true` render is not modelled, only its final value.
- `useAuth`'s error when used outside the provider: framework wiring.
- The `UserForm` and `UserTableSection` components are not part of this model. The patch the dialog hands over is an input.
- The seven-row initial list of the user-management view is not a constant of the model; every list operation is proved for any list.
- Storage failures such as an exceeded quota: unhandled in the source.
- `Strings.ToLower`: folds only ASCII `A`-`Z`; JavaScript's `toLowerCase` folds all of Unicode, which can change lengths.
- `Strings.Decimal`: does not model the exponent notation `toString` uses from 10^21 on, far beyond any `Date.now()` value.
- `Json.DecodeUser`: accepts only the layout `JSON.stringify` writes for a user (that key order, no whitespace). `JSON.parse` also accepts other layouts and other JSON values. A restore that the model reports as `MalformedUser` stands either for the exception `JSON.parse` throws, which the source does not handle, or for valid JSON that is not a user in that layout. Such valid JSON is of two kinds. A well-formed user written in another layout (whitespace between tokens, another key order, a surrogate-pair `\u` escape) is restored by the source as a proper user, while the model's start-up fails on it. Other values (`false`, `0`, `{}`, a record with an unknown role) are restored by the source as a falsy value or a user object without a valid role, states the model does not represent. Neither kind arises from text the effect itself wrote (`Session.RehydratePersist`).
- `Session.Commit`: compares the old and new state by value. React compares `user` by object identity, so it may run the effect where the model does not. The effect would then rewrite the values that `Session.Restorable` already says are stored.
- `UserAdmin.Merge`: a patch key that is present but set to `undefined` is not distinguished from an absent key.
- Strings are sequences of Unicode scalar values, while JavaScript strings are sequences of UTF-16 code units. A lone surrogate cannot be represented, so neither can the `\udxxx` escape `JSON.stringify` writes for one, and `trim` and `includes` work on scalar values rather than code units. None of the fixed strings of the model involve surrogates.
- The `roles` field is carried and written, as in the source. No access check reads it.

=== FILE: json.dfy ===
/** The text `JSON.stringify` writes for a `User` and the reading of it that
    `JSON.parse` performs at start-up. The writer follows `JSON.stringify`:
    keys in the record's insertion order, no whitespace, `"` and `\` escaped,
    control characters written as `\b \t \n \f \r` or `\u00xx`. The reader
    accepts that layout (with any JSON string escape inside strings except
    the surrogate `\u` escapes `\uD800`-`\uDFFF`) and treats every other
    text as malformed. */
module Json {
  import opened Options
  import opened Users

  function HexDigit(n: nat): (c: char)
    requires n < 16
  {
    if n < 10 then ('0' as int + n) as char else ('a' as int + n - 10) as char
  }

  function HexValue(c: char): (r: Option<nat>)
    ensures r.Some? ==> r.value < 16
  {
    if '0' <= c <= '9' then Some(c as int - '0' as int)
    else if 'a' <= c <= 'f' then Some(c as int - 'a' as int + 10)
    else if 'A' <= c <= 'F' then Some(c as int - 'A' as int + 10)
    else None
  }

  lemma HexRoundTrip(n: nat)
    requires n < 16
    ensures HexValue(HexDigit(n)) == Some(n)
  {
  }

  const Backspace: char := 8 as char
  const FormFeed: char := 12 as char

  /** How one character appears inside a JSON string literal. */
  function Escape(c: char): string {
    if c == '"' then ['\\', '"']
    else if c == '\\' then ['\\', '\\']
    else if c == Backspace then ['\\', 'b']
    else if c == '\t' then ['\\', 't']
    else if c == '\n' then ['\\', 'n']
    else if c == FormFeed then ['\\', 'f']
    else if c == '\r' then ['\\', 'r']
    else if c < ' ' then ['\\', 'u', '0', '0', HexDigit(c as int / 16), HexDigit(c as int % 16)]
    else [c]
  }

  function EscapeAll(s: string): string {
    if |s| == 0 then [] else Escape(s[0]) + EscapeAll(s[1..])
  }

  function Quote(s: string): string {
    "\"" + EscapeAll(s) + "\""
  }

  /** Reads the escape after a backslash: the character and how many
      characters of `t` it took. */
  function Unescape(t: string): (r: Option<(char, nat)>)
    ensures r.Some? ==> 1 <= r.value.1 <= |t|
  {
    if |t| == 0 then None
    else if t[0] == '"' then Some(('"', 1))
    else if t[0] == '\\' then Some(('\\', 1))
    else if t[0] == '/' then Some(('/', 1))
    else if t[0] == 'b' then Some((Backspace, 1))
    else if t[0] == 'f' then Some((FormFeed, 1))
    else if t[0] == 'n' then Some(('\n', 1))
    else if t[0] == 'r' then Some(('\r', 1))
    else if t[0] == 't' then Some(('\t', 1))
    else if t[0] == 'u' && |t| >= 5 then
      match (HexValue(t[1]), HexValue(t[2]), HexValue(t[3]), HexValue(t[4]))
      case (Some(a), Some(b), Some(c), Some(d)) =>
        var code := ((a * 16 + b) * 16 + c) * 16 + d;
        if code < 0xD800 || 0xE000 <= code then Some((code as char, 5)) else None
      case _ => None
    else None
  }

  /** Puts `c` in front of the characters of a successful read. */
  function Prepend(c: char, r: Option<(string, string)>): Option<(string, string)> {
    match r
    case None => None
    case Some((body, rest)) => Some(([c] + body, rest))
  }

  /** Reads the body of a string literal up to its closing quote; returns the
      decoded characters and the text after the quote. */
  function ReadBody(t: string): (r: Option<(string, string)>)
    ensures r.Some? ==> |r.value.1| < |t|
    decreases |t|
  {
    if |t| == 0 then None
    else if t[0] == '"' then Some(([], t[1..]))
    else if t[0] == '\\' then
      match Unescape(t[1..])
      case None => None
      case Some((c, k)) => Prepend(c, ReadBody(t[1 + k..]))
    else if t[0] < ' ' then None
    else Prepend(t[0], ReadBody(t[1..]))
  }

  function ReadString(t: string): (r: Option<(string, string)>)
    ensures r.Some? ==> |r.value.1| < |t|
  {
    if |t| > 0 && t[0] == '"' then ReadBody(t[1..]) else None
  }

  /** The text after the literal `lit`, when `t` starts with it. */
  function Expect(lit: string, t: string): (r: Option<string>)
    ensures r.Some? ==> |r.value| <= |t|
  {
    if lit <= t then Some(t[|lit|..]) else None
  }

  lemma ExpectLiteral(lit: string, rest: string)
    ensures Expect(lit, lit + rest) == Some(rest)
  {
    assert (lit + rest)[|lit|..] == rest;
  }

  /** An escape sequence of `k` characters after the backslash reads as `c`. */
  lemma ReadEscapeSequence(esc: string, c: char, tail: string)
    requires |esc| > 0 && esc[0] == '\\'
    requires Unescape(esc[1..] + tail) == Some((c, |esc| - 1))
    ensures ReadBody(esc + tail) == Prepend(c, ReadBody(tail))
  {
    var t := esc + tail;
    assert t[1..] == esc[1..] + tail;
    assert t[|esc|..] == tail;
  }

  lemma ReadShortEscape(c: char, tail: string)
    requires c == '"' || c == '\\' || c == Backspace || c == '\t' || c == '\n' || c == FormFeed || c == '\r'
    ensures ReadBody(Escape(c) + tail) == Prepend(c, ReadBody(tail))
  {
    var e := Escape(c);
    assert |e| == 2 && e[0] == '\\';
    assert (e[1..] + tail)[0] == e[1];
    ReadEscapeSequence(e, c, tail);
  }

  lemma ReadUnicodeEscape(c: char, tail: string)
    requires c < ' ' && c != Backspace && c != '\t' && c != '\n' && c != FormFeed && c != '\r'
    ensures ReadBody(Escape(c) + tail) == Prepend(c, ReadBody(tail))
  {
    var hi, lo := c as int / 16, c as int % 16;
    HexRoundTrip(hi);
    HexRoundTrip(lo);
    var e := Escape(c);
    assert e == ['\\', 'u', '0', '0', HexDigit(hi), HexDigit(lo)];
    var u := e[1..] + tail;
    assert u[0] == 'u' && u[1] == '0' && u[2] == '0' && u[3] == HexDigit(hi) && u[4] == HexDigit(lo);
    assert Unescape(u) == Some((c, 5));
    ReadEscapeSequence(e, c, tail);
  }

  /** Every character's escaped form reads back as that character. */
  lemma ReadEscapedChar(c: char, tail: string)
    ensures ReadBody(Escape(c) + tail) == Prepend(c, ReadBody(tail))
  {
    if c == '"' || c == '\\' || c == Backspace || c == '\t' || c == '\n' || c == FormFeed || c == '\r' {
      ReadShortEscape(c, tail);
    } else if c < ' ' {
      ReadUnicodeEscape(c, tail);
    } else {
      assert Escape(c) == [c];
      assert ([c] + tail)[1..] == tail;
    }
  }

  lemma {:induction false} ReadEscapedBody(s: string, rest: string)
    ensures ReadBody(EscapeAll(s) + ("\"" + rest)) == Some((s, rest))
    decreases |s|
  {
    if |s| == 0 {
      assert EscapeAll(s) + ("\"" + rest) == "\"" + rest;
    } else {
      var tail := EscapeAll(s[1..]) + ("\"" + rest);
      ReadEscapedBody(s[1..], rest);
      assert EscapeAll(s) + ("\"" + rest) == Escape(s[0]) + tail;
      ReadEscapedChar(s[0], tail);
      assert s == [s[0]] + s[1..];
    }
  }

  /** A quoted string reads back as itself, leaving what follows it. */
  lemma ReadQuoted(s: string, rest: string)
    ensures ReadString(Quote(s) + rest) == Some((s, rest))
  {
    ReadEscapedBody(s, rest);
    assert Quote(s) + rest == "\"" + (EscapeAll(s) + ("\"" + rest));
  }

  function BoolText(b: bool): string {
    if b then "true" else "false"
  }

  function ReadBool(t: string): (r: Option<(bool, string)>)
    ensures r.Some? ==> |r.value.1| < |t|
  {
    if "true" <= t then Some((true, t[4..]))
    else if "false" <= t then Some((false, t[5..]))
    else None
  }

  lemma ReadBoolText(b: bool, rest: string)
    ensures ReadBool(BoolText(b) + rest) == Some((b, rest))
  {
    ExpectLiteral(BoolText(b), rest);
    if !b {
      assert (BoolText(b) + rest)[0] == 'f';
    }
  }

  function ReadRole(t: string): (r: Option<(Role, string)>)
    ensures r.Some? ==> |r.value.1| < |t|
  {
    var (name, rest) :- ReadString(t);
    var role :- RoleFromName(name);
    Some((role, rest))
  }

  lemma ReadRoleText(r: Role, rest: string)
    ensures ReadRole(Quote(RoleName(r)) + rest) == Some((r, rest))
  {
    ReadQuoted(RoleName(r), rest);
    RoleNameRoundTrip(r);
  }

  /** The elements of a non-empty role array and its closing bracket. */
  function RoleElements(rs: seq<Role>): string
    requires |rs| > 0
  {
    Quote(RoleName(rs[0])) + (if |rs| == 1 then "]" else "," + RoleElements(rs[1..]))
  }

  function RoleArray(rs: seq<Role>): string {
    "[" + (if |rs| == 0 then "]" else RoleElements(rs))
  }

  function ReadRoleElements(t: string): (r: Option<(seq<Role>, string)>)
    ensures r.Some? ==> |r.value.1| < |t|
    decreases |t|
  {
    var (role, t1) :- ReadRole(t);
    if "]" <= t1 then Some(([role], t1[1..]))
    else if "," <= t1 then
      var (more, t2) :- ReadRoleElements(t1[1..]);
      Some(([role] + more, t2))
    else None
  }

  function ReadRoleArray(t: string): (r: Option<(seq<Role>, string)>)
  {
    var t1 :- Expect("[", t);
    if "]" <= t1 then Some(([], t1[1..])) else ReadRoleElements(t1)
  }

  lemma {:induction false} ReadRoleElementsText(rs: seq<Role>, rest: string)
    requires |rs| > 0
    ensures ReadRoleElements(RoleElements(rs) + rest) == Some((rs, rest))
    decreases |rs|
  {
    var after := if |rs| == 1 then "]" + rest else "," + (RoleElements(rs[1..]) + rest);
    assert RoleElements(rs) + rest == Quote(RoleName(rs[0])) + after;
    ReadRoleText(rs[0], after);
    if |rs| == 1 {
      assert after[1..] == rest;
      assert rs == [rs[0]];
    } else {
      ReadRoleElementsText(rs[1..], rest);
      assert after[1..] == RoleElements(rs[1..]) + rest;
      assert rs == [rs[0]] + rs[1..];
    }
  }

  lemma ReadRoleArrayText(rs: seq<Role>, rest: string)
    ensures ReadRoleArray(RoleArray(rs) + rest) == Some((rs, rest))
  {
    var inner := if |rs| == 0 then "]" + rest else RoleElements(rs) + rest;
    assert RoleArray(rs) + rest == "[" + inner;
    ExpectLiteral("[", inner);
    if |rs| == 0 {
      assert inner[1..] == rest;
    } else {
      ReadRoleElementsText(rs, rest);
      assert RoleElements(rs)[0] == '"';
    }
  }

  const RolesKey := ",\"roles\":"
  const ActiveKey := ",\"isActive\":"

  /** The `roles` member, which `JSON.stringify` omits when the field is absent. */
  function RolesMember(roles: Option<seq<Role>>): string {
    match roles
    case None => ""
    case Some(rs) => RolesKey + RoleArray(rs)
  }

  /** `JSON.stringify(u)`, nested to the right so that each member is
      followed by the text of the members after it. */
  function EncodeUser(u: User): string {
    "{\"id\":" + (Quote(u.id) +
    (",\"email\":" + (Quote(u.email) +
    (",\"name\":" + (Quote(u.name) +
    (",\"role\":" + (Quote(RoleName(u.role)) +
    UserTail(u.roles, u.isActive, u.createdAt))))))))
  }

  /** The members after `role`, and the closing brace. */
  function UserTail(roles: Option<seq<Role>>, active: bool, createdAt: string): string {
    RolesMember(roles) + (ActiveKey + (BoolText(active) +
    (",\"createdAt\":" + (Quote(createdAt) + "}"))))
  }

  function ReadRolesMember(t: string): (r: Option<(Option<seq<Role>>, string)>)
  {
    if RolesKey <= t then
      var (rs, rest) :- ReadRoleArray(t[|RolesKey|..]);
      Some((Some(rs), rest))
    else Some((None, t))
  }

  /** A `"key":` followed by a string value. */
  function ReadField(key: string, t: string): (r: Option<(string, string)>)
  {
    var t1 :- Expect(key, t);
    ReadString(t1)
  }

  lemma ReadFieldText(key: string, s: string, rest: string)
    ensures ReadField(key, key + (Quote(s) + rest)) == Some((s, rest))
  {
    ExpectLiteral(key, Quote(s) + rest);
    ReadQuoted(s, rest);
  }

  /** Reads the members after `role` up to the end of the text. */
  function ReadUserTail(t: string): (r: Option<(Option<seq<Role>>, bool, string)>)
  {
    var (roles, t1) :- ReadRolesMember(t);
    var t2 :- Expect(ActiveKey, t1);
    var (active, t3) :- ReadBool(t2);
    var (created, t4) :- ReadField(",\"createdAt\":", t3);
    if t4 == "}" then Some((roles, active, created)) else None
  }

  /** `JSON.parse` of a stored user, for the layout `EncodeUser` writes. */
  function DecodeUser(t: string): (r: Option<User>)
  {
    var (id, t1) :- ReadField("{\"id\":", t);
    var (email, t2) :- ReadField(",\"email\":", t1);
    var (name, t3) :- ReadField(",\"name\":", t2);
    var t4 :- Expect(",\"role\":", t3);
    var (role, t5) :- ReadRole(t4);
    var (roles, active, created) :- ReadUserTail(t5);
    Some(User(id, email, name, role, roles, active, created))
  }

  lemma ReadNoRolesMember(rest: string)
    ensures ReadRolesMember(ActiveKey + rest) == Some((None, ActiveKey + rest))
  {
    assert !(RolesKey <= ActiveKey + rest) by {
      assert (ActiveKey + rest)[2] == 'i';
      assert RolesKey[2] == 'r';
    }
  }

  lemma ReadSomeRolesMember(rs: seq<Role>, rest: string)
    ensures ReadRolesMember(RolesMember(Some(rs)) + rest) == Some((Some(rs), rest))
  {
    var t := RolesMember(Some(rs)) + rest;
    assert t == RolesKey + (RoleArray(rs) + rest);
    ExpectLiteral(RolesKey, RoleArray(rs) + rest);
    ReadRoleArrayText(rs, rest);
  }

  lemma ReadUserTailText(roles: Option<seq<Role>>, active: bool, createdAt: string)
    ensures ReadUserTail(UserTail(roles, active, createdAt)) == Some((roles, active, createdAt))
  {
    var r3 := ",\"createdAt\":" + (Quote(createdAt) + "}");
    var r2 := BoolText(active) + r3;
    var r1 := ActiveKey + r2;
    if roles.None? {
      assert UserTail(roles, active, createdAt) == r1;
      ReadNoRolesMember(r2);
    } else {
      ReadSomeRolesMember(roles.value, r1);
    }
    ExpectLiteral(ActiveKey, r2);
    ReadBoolText(active, r3);
    ReadFieldText(",\"createdAt\":", createdAt, "}");
  }

  /** Reading back what `EncodeUser` wrote gives the same user. */
  lemma DecodeEncode(u: User)
    ensures DecodeUser(EncodeUser(u)) == Some(u)
  {
    var tail := UserTail(u.roles, u.isActive, u.createdAt);
    var r4 := ",\"role\":" + (Quote(RoleName(u.role)) + tail);
    var r3 := ",\"name\":" + (Quote(u.name) + r4);
    var r2 := ",\"email\":" + (Quote(u.email) + r3);
    ReadFieldText("{\"id\":", u.id, r2);
    ReadFieldText(",\"email\":", u.email, r3);
    ReadFieldText(",\"name\":", u.name, r4);
    ExpectLiteral(",\"role\":", Quote(RoleName(u.role)) + tail);
    ReadRoleText(u.role, tail);
    ReadUserTailText(u.roles, u.isActive, u.createdAt);
  }

  /** Two users with the same stored text are the same user. */
  lemma EncodeInjective(u: User, v: User)
    requires EncodeUser(u) == EncodeUser(v)
    ensures u == v
  {
    DecodeEncode(u);
    DecodeEncode(v);
  }

  /** A stored user always starts with `{`, so it is never empty and never `null`. */
  lemma EncodeStartsWithBrace(u: User)
    ensures |EncodeUser(u)| > 0 && EncodeUser(u)[0] == '{'
  {
  }
}

=== FILE: login_form.dfy ===
/** The login form's submit handler: which `login` call the typed email and
    password lead to, and the error message and navigation that follow. The
    `login` call is a parameter; `SubmitToSession` plugs in the session store. */
module LoginForm {
  import opened Options
  import opened Users
  import Session

  const SuperAdminEmail := "superadmin@company.com"
  const HomePath := "/"

  const SuperAdminPasswordError :=
    "Invalid password. Use either \"password123\" for normal access or \"hide123\" for full access."
  const InvalidCredentials := "Invalid credentials. Please try again."
  const UnexpectedError := "An error occurred during login."

  /** The arguments of one `login(email, password, hidingPassword?)` call. */
  datatype LoginCall = LoginCall(email: string, password: string, hiding: Option<string>)

  /** How a `login` call ended: it resolved to a boolean or it threw. */
  datatype Reply = Returned(success: bool) | Threw

  /** The form after a submit: the error shown, whether the button is still
      disabled, the `login` call made (if any) and where it navigated (if anywhere). */
  datatype Submission = Submission(error: string, loading: bool, call: Option<LoginCall>, navigate: Option<string>)

  predicate IsSuperAdmin(email: string) {
    email == SuperAdminEmail
  }

  /** The branching that chooses the `login` arguments. The super admin's two
      passwords both become the shared password, the second one also as the
      hiding password; any other super admin password makes no call. */
  function PlanLogin(email: string, password: string): (r: Option<LoginCall>)
    ensures !IsSuperAdmin(email) ==> r == Some(LoginCall(email, password, None))
    ensures IsSuperAdmin(email) && password == Session.SharedPassword ==>
      r == Some(LoginCall(email, Session.SharedPassword, None))
    ensures IsSuperAdmin(email) && password == Session.HidingPassword ==>
      r == Some(LoginCall(email, Session.SharedPassword, Some(Session.HidingPassword)))
    ensures r.None? <==>
      IsSuperAdmin(email) && password != Session.SharedPassword && password != Session.HidingPassword
    ensures r.Some? ==> r.value.email == email
  {
    if IsSuperAdmin(email) then
      if password == "password123" then Some(LoginCall(email, "password123", None))
      else if password == "hide123" then Some(LoginCall(email, "password123", Some("hide123")))
      else None
    else Some(LoginCall(email, password, None))
  }

  /** `handleSubmit`. The error is cleared when the submit starts, so nothing of
      an earlier submit survives; `loading` is false when it ends. */
  function HandleSubmit(email: string, password: string, login: LoginCall -> Reply): (r: Submission)
    ensures !r.loading
    ensures r.call == PlanLogin(email, password)
    ensures r.call.None? ==> r.error == SuperAdminPasswordError && r.navigate.None?
    ensures r.call.Some? && login(r.call.value) == Returned(true) ==>
      r.navigate == Some(HomePath) && r.error == ""
    ensures r.call.Some? && login(r.call.value) == Returned(false) ==>
      r.navigate.None? && r.error == (if IsSuperAdmin(email) then "" else InvalidCredentials)
    ensures r.call.Some? && login(r.call.value) == Threw ==>
      r.navigate.None? && r.error == UnexpectedError
    ensures r.navigate.Some? <==> r.call.Some? && login(r.call.value) == Returned(true)
  {
    var call := PlanLogin(email, password);
    match call
    case None =>
      Submission(SuperAdminPasswordError, false, call, None)
    case Some(c) =>
      match login(c)
      case Threw => Submission(UnexpectedError, false, call, None)
      case Returned(success) =>
        if success then Submission("", false, call, Some(HomePath))
        else if !IsSuperAdmin(email) then Submission(InvalidCredentials, false, call, None)
        else Submission("", false, call, None)
  }

  datatype FormStep = FormStep(app: Session.App, submission: Submission)

  /** A submit wired to the session store over the demo accounts. */
  function SubmitToSession(app: Session.App, email: string, password: string): (r: FormStep)
    ensures r.submission.navigate.None? ==> r.app == app
    ensures r.submission.navigate.Some? ==> Session.IsAuthenticated(r.app.session)
    ensures r.submission.error != UnexpectedError
    ensures Session.Restorable(app) ==> Session.Restorable(r.app)
    ensures Session.OtherKeysKept(app.storage, r.app.storage)
    ensures r.app.session == app.session ==> r.app.storage == app.storage
    ensures r.app.session != app.session ==> Session.Stores(r.app.storage, r.app.session)
  {
    var attempt := (c: LoginCall) => Session.LoginStep(app, Session.MockUsers, c.email, c.password, c.hiding);
    var submission := HandleSubmit(email, password, (c: LoginCall) => Returned(attempt(c).success));
    match submission.call
    case None => FormStep(app, submission)
    case Some(c) => FormStep(attempt(c).app, submission)
  }

  /** Whoever logs in through the form sees the hidden transactions exactly
      when they are the super admin and typed the hiding password. */
  lemma HiddenVisibilityThroughForm(app: Session.App, email: string, password: string)
    ensures var r := SubmitToSession(app, email, password);
      r.submission.navigate.Some? ==>
        (r.app.session.canSeeHidden <==> IsSuperAdmin(email) && password == Session.HidingPassword)
  {
    Session.SuperAdminEntry();
  }

  /** The super admin typing the hiding password ends logged in as the super
      admin with the hidden transactions, and a reload keeps both. */
  lemma SuperAdminWithHidingPassword(app: Session.App)
    requires Session.Restorable(app)
    ensures var r := SubmitToSession(app, SuperAdminEmail, Session.HidingPassword);
      && r.app.session == Session.Session(Some(Session.MockUsers[0]), true)
      && r.submission.navigate == Some(HomePath) && r.submission.error == ""
      && Session.Restorable(r.app)
  {
    Session.SuperAdminEntry();
  }

  /** The super admin typing the shared password ends logged in as the super
      admin without the hidden transactions. */
  lemma SuperAdminWithSharedPassword(app: Session.App)
    requires Session.Restorable(app)
    ensures var r := SubmitToSession(app, SuperAdminEmail, Session.SharedPassword);
      && r.app.session == Session.Session(Some(Session.MockUsers[0]), false)
      && r.submission.navigate == Some(HomePath) && r.submission.error == ""
      && Session.Restorable(r.app)
  {
    Session.SuperAdminEntry();
  }

  /** Any other password for the super admin makes no call and changes nothing. */
  lemma SuperAdminWrongPassword(app: Session.App, password: string)
    requires password != Session.SharedPassword && password != Session.HidingPassword
    ensures var r := SubmitToSession(app, SuperAdminEmail, password);
      r.app == app && r.submission.call.None? && r.submission.error == SuperAdminPasswordError
  {
  }
}

=== FILE: options.dfy ===
/** The two wrappers the model needs. `Option` stands for a JavaScript value
    that may be missing (`null` or `undefined`); `Result` for a step that can
    fail, such as reading a stored user back. Both support `:-`. */
module Options {

  datatype Option<+T> = None | Some(value: T) {

    predicate IsFailure() {
      None?
    }

    function PropagateFailure<U>(): Option<U>
      requires None?
    {
      None
    }

    function Extract(): T
      requires Some?
    {
      value
    }

    /** `x ?? fallback`: the wrapped value if there is one. */
    function GetOr(fallback: T): T {
      if Some? then value else fallback
    }
  }

  datatype Result<+T, +E> = Ok(value: T) | Err(error: E) {

    predicate IsFailure() {
      Err?
    }

    function PropagateFailure<U>(): Result<U, E>
      requires Err?
    {
      Err(error)
    }

    function Extract(): T
      requires Ok?
    {
      value
    }
  }
}

=== FILE: seqs.dfy ===
/** The two list shapes the user-management view builds with `Array.prototype`
    methods: `filter` (keep the elements a test accepts) and a `map` that rewrites
    only the elements a test accepts. */
module Seqs {

  /** `a` is obtained from `b` by deleting elements, keeping the order of the rest. */
  ghost predicate IsSubseq<T>(a: seq<T>, b: seq<T>)
    decreases |b|
  {
    if |a| == 0 then true
    else if |b| == 0 then false
    else (a[0] == b[0] && IsSubseq(a[1..], b[1..])) || IsSubseq(a, b[1..])
  }

  /** `s.filter(p)`. */
  function Keep<T>(s: seq<T>, p: T -> bool): (r: seq<T>)
    ensures |r| <= |s|
    ensures forall i :: 0 <= i < |r| ==> p(r[i])
    decreases |s|
  {
    if |s| == 0 then []
    else if p(s[0]) then [s[0]] + Keep(s[1..], p)
    else Keep(s[1..], p)
  }

  /** The filtered list is a subsequence of the original: order is kept. */
  lemma {:induction false} KeepIsSubseq<T>(s: seq<T>, p: T -> bool)
    ensures IsSubseq(Keep(s, p), s)
    decreases |s|
  {
    if |s| > 0 {
      KeepIsSubseq(s[1..], p);
      if p(s[0]) {
        assert Keep(s, p)[1..] == Keep(s[1..], p);
      }
    }
  }

  /** An element is in the filtered list exactly when it is in the list and passes. */
  lemma {:induction false} KeepMembers<T>(s: seq<T>, p: T -> bool, x: T)
    ensures x in Keep(s, p) <==> x in s && p(x)
    decreases |s|
  {
    if |s| > 0 {
      KeepMembers(s[1..], p, x);
      assert s == [s[0]] + s[1..];
    }
  }

  /** Every passing occurrence survives the filter and no failing one does. */
  lemma {:induction false} KeepCount<T>(s: seq<T>, p: T -> bool, x: T)
    ensures multiset(Keep(s, p))[x] == if p(x) then multiset(s)[x] else 0
    decreases |s|
  {
    if |s| > 0 {
      KeepCount(s[1..], p, x);
      assert s == [s[0]] + s[1..];
    }
  }

  /** Filtering distributes over concatenation. */
  lemma {:induction false} KeepAppend<T>(a: seq<T>, b: seq<T>, p: T -> bool)
    ensures Keep(a + b, p) == Keep(a, p) + Keep(b, p)
    decreases |a|
  {
    if |a| == 0 {
      assert a + b == b;
    } else {
      KeepAppend(a[1..], b, p);
      assert (a + b)[1..] == a[1..] + b;
      assert (a + b)[0] == a[0];
    }
  }

  /** Filtering a list that already passes everywhere changes nothing. */
  lemma {:induction false} KeepAll<T>(s: seq<T>, p: T -> bool)
    requires forall i :: 0 <= i < |s| ==> p(s[i])
    ensures Keep(s, p) == s
    decreases |s|
  {
    if |s| > 0 {
      KeepAll(s[1..], p);
    }
  }

  /** `s.map(x => p(x) ? f(x) : x)`. */
  function UpdateWhere<T>(s: seq<T>, p: T -> bool, f: T -> T): (r: seq<T>)
    ensures |r| == |s|
    ensures forall i :: 0 <= i < |s| ==> r[i] == if p(s[i]) then f(s[i]) else s[i]
    decreases |s|
  {
    if |s| == 0 then []
    else [if p(s[0]) then f(s[0]) else s[0]] + UpdateWhere(s[1..], p, f)
  }

  lemma {:induction false} SubseqReflexive<T>(s: seq<T>)
    ensures IsSubseq(s, s)
    decreases |s|
  {
    if |s| > 0 {
      SubseqReflexive(s[1..]);
    }
  }

  /** A subsequence of a subsequence is a subsequence. */
  lemma {:induction false} SubseqTransitive<T>(a: seq<T>, b: seq<T>, c: seq<T>)
    requires IsSubseq(a, b) && IsSubseq(b, c)
    ensures IsSubseq(a, c)
    decreases |c|
  {
    if |a| > 0 {
      if IsSubseq(b, c[1..]) {
        SubseqTransitive(a, b, c[1..]);
      } else if IsSubseq(a, b[1..]) {
        SubseqTransitive(a, b[1..], c[1..]);
      } else {
        SubseqTransitive(a[1..], b[1..], c[1..]);
      }
    }
  }
}

=== FILE: session.dfy ===
/** The authentication context: the current user, the hidden-transactions
    flag, the mocked login against a fixed table, logout, and the mirroring of
    both values into browser storage (keys `user` and `canSeeHiddenTransactions`).
    Each React state update is one synchronous transition; the effect that
    writes storage after a render is `Commit`. */
module Session {
  import opened Options
  import opened Users
  import Json

  /** The one password every account accepts. */
  const SharedPassword := "password123"
  /** The second password that gives the super admin the hidden transactions. */
  const HidingPassword := "hide123"

  const UserKey := "user"
  const HiddenKey := "canSeeHiddenTransactions"

  /** The demo accounts `login` searches. */
  const MockUsers: seq<User> := [
    User("1", "superadmin@company.com", "Super Admin", SuperAdmin, None, true, "2024-01-01"),
    User("2", "admin@company.com", "Admin User", Admin, None, true, "2024-01-01"),
    User("3", "accounts@company.com", "Accounts Manager", Accounts, None, true, "2024-01-01"),
    User("4", "production@company.com", "Production Manager", ProductionManager, None, true, "2024-01-01"),
    User("5", "dispatch@company.com", "Dispatch User", Dispatch, None, true, "2024-01-01"),
    User("6", "worker@company.com", "Worker", Worker, None, true, "2024-01-01"),
    User("7", "customer@company.com", "Customer User", Customer, None, true, "2024-01-01")
  ]

  datatype Session = Session(user: Option<User>, canSeeHidden: bool)

  /** The browser's `localStorage`: string keys to string values. */
  type Storage = map<string, string>

  /** The in-memory session together with the storage it is mirrored to. */
  datatype App = App(session: Session, storage: Storage)

  datatype LoginResult = LoginResult(session: Session, success: bool)
  datatype StepResult = StepResult(app: App, success: bool)

  /** The stored `user` text is not a user in the layout `JSON.stringify` writes. */
  datatype RestoreError = MalformedUser(text: string)

  const LoggedOut := Session(None, false)

  predicate IsAuthenticated(st: Session) {
    st.user.Some?
  }

  /** The authorization rule every role-gated view applies: someone is logged
      in and their role is one of the allowed ones. */
  predicate CanAccess(user: Option<User>, allowed: set<Role>) {
    user.Some? && user.value.role in allowed
  }

  predicate ActiveWithEmail(u: User, email: string) {
    u.email == email && u.isActive
  }

  /** Entry `i` is the first active entry with this email. */
  predicate IsFirstActive(table: seq<User>, email: string, i: int) {
    && 0 <= i < |table|
    && ActiveWithEmail(table[i], email)
    && forall j :: 0 <= j < i ==> !ActiveWithEmail(table[j], email)
  }

  /** `table.find(u => u.email === email && u.isActive)`, as an index. */
  function FindActive(table: seq<User>, email: string): (r: Option<nat>)
    ensures r.Some? ==> IsFirstActive(table, email, r.value)
    ensures r.None? ==> forall j :: 0 <= j < |table| ==> !ActiveWithEmail(table[j], email)
    decreases |table|
  {
    if |table| == 0 then None
    else if ActiveWithEmail(table[0], email) then Some(0)
    else
      match FindActive(table[1..], email)
      case None => None
      case Some(i) =>
        assert forall j :: 1 <= j <= i + 1 ==> table[j] == table[1..][j - 1];
        Some(i + 1)
  }

  /** `login(email, password, hidingPassword)` against `table`; `hiding` is
      `None` when the argument is left out. A failed attempt changes nothing. */
  function Login(table: seq<User>, st: Session, email: string, password: string, hiding: Option<string>): (r: LoginResult)
    ensures password != SharedPassword ==> r == LoginResult(st, false)
    ensures password == SharedPassword ==>
      (r.success <==> exists i :: 0 <= i < |table| && ActiveWithEmail(table[i], email))
    ensures r.success ==> exists i :: IsFirstActive(table, email, i) && r.session.user == Some(table[i])
    ensures !r.success ==> r.session == st
    ensures r.success && r.session.user.value.role == SuperAdmin ==>
      (r.session.canSeeHidden <==> hiding == Some(HidingPassword))
    ensures r.success && r.session.user.value.role != SuperAdmin ==> !r.session.canSeeHidden
  {
    if password == SharedPassword then
      match FindActive(table, email)
      case Some(i) =>
        var found := table[i];
        var hidden := if found.role == SuperAdmin then hiding == Some(HidingPassword) else false;
        LoginResult(Session(Some(found), hidden), true)
      case None => LoginResult(st, false)
    else LoginResult(st, false)
  }

  /** Every key other than the two the provider owns is as it was. */
  ghost predicate OtherKeysKept(before: Storage, after: Storage) {
    forall k :: k != UserKey && k != HiddenKey ==>
      (k in after <==> k in before) && (k in after ==> after[k] == before[k])
  }

  /** The storage holds what the effect writes for this session: the user's
      JSON under `user` (no key when logged out) and the flag as text. */
  predicate Stores(storage: Storage, st: Session) {
    && (st.user.Some? ==> UserKey in storage && storage[UserKey] == Json.EncodeUser(st.user.value))
    && (st.user.None? ==> UserKey !in storage)
    && HiddenKey in storage && storage[HiddenKey] == (if st.canSeeHidden then "true" else "false")
  }

  /** The storage effect: write the user as JSON or remove it, then write the
      flag as `String(flag)`, which is the same text as the JSON boolean. */
  function Persist(st: Session, storage: Storage): (r: Storage)
    ensures st.user.Some? ==> UserKey in r && r[UserKey] == Json.EncodeUser(st.user.value)
    ensures st.user.None? ==> UserKey !in r
    ensures HiddenKey in r && r[HiddenKey] == (if st.canSeeHidden then "true" else "false")
    ensures OtherKeysKept(storage, r)
  {
    var withUser := if st.user.Some? then storage[UserKey := Json.EncodeUser(st.user.value)] else storage - {UserKey};
    withUser[HiddenKey := Json.BoolText(st.canSeeHidden)]
  }

  /** The effect runs after a render in which the user or the flag changed. */
  function Commit(before: Session, after: Session, storage: Storage): Storage {
    if before == after then storage else Persist(after, storage)
  }

  /** The initial `user` state: an absent or empty stored text gives no user,
      `null` parses to no user, anything else must be a stored user. */
  function RestoreUser(storage: Storage): (r: Result<Option<User>, RestoreError>)
  {
    if UserKey !in storage || storage[UserKey] == "" || storage[UserKey] == "null" then Ok(None)
    else
      match Json.DecodeUser(storage[UserKey])
      case Some(u) => Ok(Some(u))
      case None => Err(MalformedUser(storage[UserKey]))
  }

  /** The state initialisers run when the provider mounts. */
  function Rehydrate(storage: Storage): (r: Result<Session, RestoreError>)
    ensures r.Ok? ==> (r.value.canSeeHidden <==> HiddenKey in storage && storage[HiddenKey] == "true")
    ensures (UserKey !in storage || storage[UserKey] == "" || storage[UserKey] == "null") ==>
      r.Ok? && r.value.user.None?
    ensures r.Err? <==>
      UserKey in storage && storage[UserKey] != "" && storage[UserKey] != "null"
      && Json.DecodeUser(storage[UserKey]).None?
    ensures r.Ok? && r.value.user.Some? ==>
      UserKey in storage && Json.DecodeUser(storage[UserKey]) == r.value.user
    ensures r.Ok? ==> (r.value.user ==
      if UserKey !in storage || storage[UserKey] == "" || storage[UserKey] == "null" then None
      else Json.DecodeUser(storage[UserKey]))
  {
    var user :- RestoreUser(storage);
    Ok(Session(user, HiddenKey in storage && storage[HiddenKey] == "true"))
  }

  /** Reloading the page would bring back exactly this session. */
  predicate Restorable(app: App) {
    Rehydrate(app.storage) == Ok(app.session)
  }

  /** What `Persist` writes, `Rehydrate` reads back unchanged. */
  lemma RehydratePersist(st: Session, storage: Storage)
    ensures Rehydrate(Persist(st, storage)) == Ok(st)
  {
    var s := Persist(st, storage);
    if st.user.Some? {
      var u := st.user.value;
      Json.DecodeEncode(u);
      Json.EncodeStartsWithBrace(u);
      assert s[UserKey] != "" && s[UserKey] != "null" by {
        assert s[UserKey][0] == '{';
      }
    }
  }

  /** Writing the same session twice writes nothing new. */
  lemma PersistIdempotent(st: Session, storage: Storage)
    ensures Persist(st, Persist(st, storage)) == Persist(st, storage)
  {
  }

  /** Mount: rehydrate, then the effect's first run writes the state back. */
  function Startup(storage: Storage): (r: Result<App, RestoreError>)
    ensures r.Err? <==> Rehydrate(storage).Err?
    ensures r.Ok? ==> r.value.session == Rehydrate(storage).value && Restorable(r.value)
    ensures r.Ok? ==> OtherKeysKept(storage, r.value.storage)
    ensures r.Ok? ==> Stores(r.value.storage, r.value.session)
  {
    var st :- Rehydrate(storage);
    RehydratePersist(st, storage);
    Ok(App(st, Persist(st, storage)))
  }

  /** A login attempt followed by the storage effect. */
  function LoginStep(app: App, table: seq<User>, email: string, password: string, hiding: Option<string>): (r: StepResult)
    ensures !r.success ==> r.app == app
    ensures r.success ==> IsAuthenticated(r.app.session) && password == SharedPassword
    ensures r.success ==> exists i :: IsFirstActive(table, email, i) && r.app.session.user == Some(table[i])
    ensures r.success ==> (r.app.session.canSeeHidden <==>
      r.app.session.user.value.role == SuperAdmin && hiding == Some(HidingPassword))
    ensures Restorable(app) ==> Restorable(r.app)
    ensures r.app.session != app.session ==> Restorable(r.app)
    ensures OtherKeysKept(app.storage, r.app.storage)
    ensures r.app.session == app.session ==> r.app.storage == app.storage
    ensures r.app.session != app.session ==> Stores(r.app.storage, r.app.session)
  {
    var res := Login(table, app.session, email, password, hiding);
    RehydratePersist(res.session, app.storage);
    StepResult(App(res.session, Commit(app.session, res.session, app.storage)), res.success)
  }

  /** `logout()`: clear both values, remove both keys, then the effect runs
      if the state changed, which writes the flag key back as `"false"`. */
  function LogoutStep(app: App): (r: App)
    ensures r.session == LoggedOut && !IsAuthenticated(r.session)
    ensures forall allowed :: !CanAccess(r.session.user, allowed)
    ensures UserKey !in r.storage
    ensures app.session == LoggedOut ==> HiddenKey !in r.storage
    ensures app.session != LoggedOut ==> HiddenKey in r.storage && r.storage[HiddenKey] == "false"
    ensures OtherKeysKept(app.storage, r.storage)
    ensures Restorable(r)
  {
    var cleared := app.storage - {UserKey, HiddenKey};
    App(LoggedOut, Commit(app.session, LoggedOut, cleared))
  }

  /** Logging out twice leaves the same session and the same restorable
      storage as logging out once; the stored text differs only in that the
      second logout, which changes no state, removes the flag key for good. */
  lemma LogoutTwice(app: App)
    ensures LogoutStep(LogoutStep(app)).session == LogoutStep(app).session
    ensures LogoutStep(LogoutStep(app)).storage == LogoutStep(app).storage - {HiddenKey}
    ensures Rehydrate(LogoutStep(LogoutStep(app)).storage) == Rehydrate(LogoutStep(app).storage)
    ensures app.session != LoggedOut ==> LogoutStep(LogoutStep(app)) != LogoutStep(app)
  {
    var once := LogoutStep(app);
    var twice := LogoutStep(once);
    assert twice.storage == once.storage - {UserKey, HiddenKey};
    assert once.storage - {UserKey, HiddenKey} == once.storage - {HiddenKey};
  }

  /** Each demo account logs in with the shared password as its own record,
      without the hidden transactions. */
  lemma DemoAccountsLogIn(st: Session, i: int)
    requires 0 <= i < |MockUsers|
    ensures Login(MockUsers, st, MockUsers[i].email, SharedPassword, None)
      == LoginResult(Session(Some(MockUsers[i]), false), true)
  {
    var e := MockUsers[i].email;
    assert forall j :: 0 <= j < |MockUsers| && j != i ==> MockUsers[j].email != e by {
      forall j | 0 <= j < |MockUsers| && j != i
        ensures MockUsers[j].email != e
      {
        assert MockUsers[j].email[0] != e[0] || MockUsers[j].email[1] != e[1];
      }
    }
    assert IsFirstActive(MockUsers, e, i);
  }

  /** The super admin is the first entry and the only one with that role. */
  lemma SuperAdminEntry()
    ensures FindActive(MockUsers, MockUsers[0].email) == Some(0)
    ensures MockUsers[0].role == SuperAdmin
    ensures forall i :: 0 <= i < |MockUsers| && MockUsers[i].role == SuperAdmin ==> i == 0
  {
  }
}

=== FILE: strings.dfy ===
/** The JavaScript string operations the dashboard relies on: `toLowerCase`,
    `trim`, `includes`, and `Number.prototype.toString` on a non-negative integer. */
module Strings {

  /** ASCII case folding: `A`..`Z` become `a`..`z`, everything else is kept. */
  function LowerChar(c: char): (d: char)
    ensures 'A' <= c <= 'Z' ==> 'a' <= d <= 'z' && d as int - c as int == 32
    ensures !('A' <= c <= 'Z') ==> d == c
  {
    if 'A' <= c <= 'Z' then (c as int + 32) as char else c
  }

  function ToLower(s: string): (r: string)
    ensures |r| == |s|
    ensures forall i :: 0 <= i < |s| ==> r[i] == LowerChar(s[i])
  {
    if |s| == 0 then [] else [LowerChar(s[0])] + ToLower(s[1..])
  }

  /** Lower-casing twice is lower-casing once. */
  lemma {:induction false} ToLowerIdempotent(s: string)
    ensures ToLower(ToLower(s)) == ToLower(s)
  {
    if |s| > 0 {
      ToLowerIdempotent(s[1..]);
      assert ToLower(s)[1..] == ToLower(s[1..]);
    }
  }

  /** The characters `String.prototype.trim` strips: the ECMAScript
      WhiteSpace and LineTerminator code points. */
  predicate IsWhitespace(c: char) {
    var n := c as int;
    n == 0x09 || n == 0x0A || n == 0x0B || n == 0x0C || n == 0x0D || n == 0x20
    || n == 0xA0 || n == 0x1680 || (0x2000 <= n <= 0x200A) || n == 0x2028
    || n == 0x2029 || n == 0x202F || n == 0x205F || n == 0x3000 || n == 0xFEFF
  }

  /** Drops the leading whitespace. */
  function TrimStart(s: string): (r: string)
    ensures |r| <= |s| && r == s[|s| - |r|..]
    ensures forall i :: 0 <= i < |s| - |r| ==> IsWhitespace(s[i])
    ensures |r| > 0 ==> !IsWhitespace(r[0])
  {
    if |s| > 0 && IsWhitespace(s[0]) then TrimStart(s[1..]) else s
  }

  /** Drops the trailing whitespace. */
  function TrimEnd(s: string): (r: string)
    ensures |r| <= |s| && r == s[..|r|]
    ensures forall i :: |r| <= i < |s| ==> IsWhitespace(s[i])
    ensures |r| > 0 ==> !IsWhitespace(r[|r| - 1])
  {
    if |s| > 0 && IsWhitespace(s[|s| - 1]) then TrimEnd(s[..|s| - 1]) else s
  }

  function Trim(s: string): string {
    TrimEnd(TrimStart(s))
  }

  /** `!s.trim()`: the trimmed string is empty (the empty string is falsy). */
  predicate IsBlank(s: string) {
    Trim(s) == []
  }

  lemma {:induction false} TrimStartEmptyIff(s: string)
    ensures TrimStart(s) == [] <==> forall i :: 0 <= i < |s| ==> IsWhitespace(s[i])
  {
    if |s| > 0 && IsWhitespace(s[0]) {
      TrimStartEmptyIff(s[1..]);
      assert forall i :: 1 <= i < |s| ==> s[i] == s[1..][i - 1];
    }
  }

  /** A string trims to nothing exactly when every character is whitespace. */
  lemma BlankIffAllWhitespace(s: string)
    ensures IsBlank(s) <==> forall i :: 0 <= i < |s| ==> IsWhitespace(s[i])
  {
    var t := TrimStart(s);
    TrimStartEmptyIff(s);
    if |t| > 0 {
      assert !IsWhitespace(t[|t| - 1]) || !IsWhitespace(t[0]);
      assert |TrimEnd(t)| > 0;
    }
  }

  lemma LowerKeepsWhitespace(c: char)
    ensures IsWhitespace(LowerChar(c)) <==> IsWhitespace(c)
  {
  }

  /** Lower-casing neither creates nor removes whitespace. */
  lemma BlankUnderLower(s: string)
    ensures IsBlank(ToLower(s)) <==> IsBlank(s)
  {
    BlankIffAllWhitespace(s);
    BlankIffAllWhitespace(ToLower(s));
    forall i | 0 <= i < |s|
      ensures IsWhitespace(ToLower(s)[i]) <==> IsWhitespace(s[i])
    {
      LowerKeepsWhitespace(s[i]);
    }
  }

  /** `s.includes(t)`: `t` occurs in `s` at some offset. */
  predicate Contains(s: string, t: string)
    decreases |s|
  {
    t <= s || (|s| > 0 && Contains(s[1..], t))
  }

  /** `Contains` agrees with the positional definition of a substring. */
  lemma {:induction false} ContainsIffOccurs(s: string, t: string)
    ensures Contains(s, t) <==> exists i :: 0 <= i <= |s| && t <= s[i..]
    decreases |s|
  {
    if t <= s {
      assert t <= s[0..];
    } else if |s| > 0 {
      ContainsIffOccurs(s[1..], t);
      if exists i :: 0 <= i <= |s| && t <= s[i..] {
        var i :| 0 <= i <= |s| && t <= s[i..];
        assert i != 0;
        assert s[1..][i - 1..] == s[i..];
      }
      if exists j :: 0 <= j <= |s[1..]| && t <= s[1..][j..] {
        var j :| 0 <= j <= |s[1..]| && t <= s[1..][j..];
        assert s[1..][j..] == s[j + 1..];
      }
    } else {
      assert forall i :: 0 <= i <= |s| ==> s[i..] == s;
    }
  }

  function DigitChar(d: nat): (c: char)
    requires d < 10
    ensures '0' <= c <= '9'
  {
    ('0' as int + d) as char
  }

  /** Decimal text of a non-negative integer, as `n.toString()` writes it below 10^21. */
  function Decimal(n: nat): (r: string)
    ensures |r| > 0
    ensures forall i :: 0 <= i < |r| ==> '0' <= r[i] <= '9'
    ensures |r| > 1 ==> r[0] != '0'
  {
    if n < 10 then [DigitChar(n)] else Decimal(n / 10) + [DigitChar(n % 10)]
  }

  /** The number a string of decimal digits denotes. */
  function DecimalValue(s: string): nat
    requires forall i :: 0 <= i < |s| ==> '0' <= s[i] <= '9'
  {
    if |s| == 0 then 0
    else DecimalValue(s[..|s| - 1]) * 10 + (s[|s| - 1] as int - '0' as int)
  }

  /** `Decimal` loses nothing: reading its digits back gives the number. */
  lemma {:induction false} DecimalRoundTrip(n: nat)
    ensures DecimalValue(Decimal(n)) == n
  {
    if n >= 10 {
      DecimalRoundTrip(n / 10);
      var r := Decimal(n);
      assert r[..|r| - 1] == Decimal(n / 10);
    }
  }

  /** Distinct numbers get distinct decimal texts. */
  lemma DecimalInjective(m: nat, n: nat)
    requires Decimal(m) == Decimal(n)
    ensures m == n
  {
    DecimalRoundTrip(m);
    DecimalRoundTrip(n);
  }
}

=== FILE: user_admin.dfy ===
/** The user-management view: the list operations behind its buttons and
    dialog, the search box, the admin-only gate and the five role sections.
    `window.confirm`, `Date.now()` and `new Date().toISOString()` are inputs. */
module UserAdmin {
  import opened Options
  import opened Users
  import opened Seqs
  import opened Strings
  import Session

  /** `Partial<User>` as the dialog hands it over: each field present or absent. */
  datatype UserPatch = UserPatch(
    id: Option<string>,
    email: Option<string>,
    name: Option<string>,
    role: Option<Role>,
    roles: Option<seq<Role>>,
    isActive: Option<bool>,
    createdAt: Option<string>)

  const NoChanges := UserPatch(None, None, None, None, None, None, None)

  /** `handleDeleteUser(userId)`: after a confirmed prompt, every entry with that
      id is gone and the rest keep their order; a declined prompt changes nothing. */
  function DeleteUser(users: seq<User>, userId: string, confirmed: bool): (r: seq<User>)
    ensures !confirmed ==> r == users
    ensures confirmed ==> IsSubseq(r, users)
    ensures confirmed ==> forall i :: 0 <= i < |r| ==> r[i].id != userId
    ensures confirmed ==> forall u :: multiset(r)[u] == if u.id == userId then 0 else multiset(users)[u]
  {
    if confirmed then
      var keep := (u: User) => u.id != userId;
      KeepIsSubseq(users, keep);
      assert forall u :: multiset(Keep(users, keep))[u] == if keep(u) then multiset(users)[u] else 0 by {
        forall u { KeepCount(users, keep, u); }
      }
      Keep(users, keep)
    else users
  }

  /** `handleToggleStatus(userId)`: the active flag flips exactly on the entries
      with that id; no other field and no other entry changes. */
  function ToggleStatus(users: seq<User>, userId: string): (r: seq<User>)
    ensures |r| == |users|
    ensures forall i :: 0 <= i < |users| ==> r[i].(isActive := users[i].isActive) == users[i]
    ensures forall i :: 0 <= i < |users| ==> (r[i].isActive != users[i].isActive <==> users[i].id == userId)
  {
    UpdateWhere(users, (u: User) => u.id == userId, (u: User) => u.(isActive := !u.isActive))
  }

  /** Toggling the same id twice restores the list. */
  lemma ToggleTwice(users: seq<User>, userId: string)
    ensures ToggleStatus(ToggleStatus(users, userId), userId) == users
  {
    var once := ToggleStatus(users, userId);
    var twice := ToggleStatus(once, userId);
    forall i | 0 <= i < |users|
      ensures twice[i] == users[i]
    {
      assert once[i].id == users[i].id;
    }
  }

  /** `{ ...u, ...userData }`: a field present in the patch replaces the user's. */
  function Merge(u: User, p: UserPatch): User {
    User(
      p.id.GetOr(u.id),
      p.email.GetOr(u.email),
      p.name.GetOr(u.name),
      p.role.GetOr(u.role),
      if p.roles.Some? then p.roles else u.roles,
      p.isActive.GetOr(u.isActive),
      p.createdAt.GetOr(u.createdAt))
  }

  /** A patch with no fields leaves a user as it was. */
  lemma MergeNoChanges(u: User)
    ensures Merge(u, NoChanges) == u
  {
  }

  /** Applying a patch a second time changes nothing more. */
  lemma MergeIdempotent(u: User, p: UserPatch)
    ensures Merge(Merge(u, p), p) == Merge(u, p)
  {
  }

  /** The edit branch of `handleSaveUser`: entries whose id is the edited user's
      get the patch merged in; all others stay as they are. */
  function SaveEdit(users: seq<User>, editingId: string, patch: UserPatch): (r: seq<User>)
    ensures |r| == |users|
    ensures forall i :: 0 <= i < |users| && users[i].id == editingId ==> r[i] == Merge(users[i], patch)
    ensures forall i :: 0 <= i < |users| && users[i].id != editingId ==> r[i] == users[i]
  {
    UpdateWhere(users, (u: User) => u.id == editingId, (u: User) => Merge(u, patch))
  }

  /** Saving the same edit twice is saving it once, even when the patch changes the id. */
  lemma SaveEditIdempotent(users: seq<User>, editingId: string, patch: UserPatch)
    ensures SaveEdit(SaveEdit(users, editingId, patch), editingId, patch) == SaveEdit(users, editingId, patch)
  {
    var once := SaveEdit(users, editingId, patch);
    var twice := SaveEdit(once, editingId, patch);
    forall i | 0 <= i < |users|
      ensures twice[i] == once[i]
    {
      if users[i].id == editingId {
        MergeIdempotent(users[i], patch);
      }
    }
  }

  /** An empty patch saves to the list unchanged. */
  lemma SaveEditNoChanges(users: seq<User>, editingId: string)
    ensures SaveEdit(users, editingId, NoChanges) == users
  {
    var r := SaveEdit(users, editingId, NoChanges);
    forall i | 0 <= i < |users|
      ensures r[i] == users[i]
    {
      MergeNoChanges(users[i]);
    }
  }

  /** The record the add branch builds. */
  function NewUser(patch: UserPatch, now: nat, isoNow: string): User {
    var role := patch.role.GetOr(Worker);
    User(Decimal(now), patch.email.GetOr(""), patch.name.GetOr(""), role, Some([role]), true, isoNow)
  }

  /** The add branch of `handleSaveUser`: exactly one user is appended, active,
      with the defaults for the fields the dialog left out. */
  function SaveNew(users: seq<User>, patch: UserPatch, now: nat, isoNow: string): (r: seq<User>)
    ensures |r| == |users| + 1 && r[..|users|] == users
    ensures var n := r[|users|];
      && n.isActive && n.roles == Some([n.role]) && n.createdAt == isoNow
      && |n.id| > 0 && (forall i :: 0 <= i < |n.id| ==> '0' <= n.id[i] <= '9') && DecimalValue(n.id) == now
      && (|n.id| > 1 ==> n.id[0] != '0')
      && (n.role == if patch.role.Some? then patch.role.value else Worker)
      && (n.email == if patch.email.Some? then patch.email.value else "")
      && (n.name == if patch.name.Some? then patch.name.value else "")
  {
    DecimalRoundTrip(now);
    users + [NewUser(patch, now, isoNow)]
  }

  /** `handleSaveUser`: edit when a user is being edited, add otherwise. */
  function SaveUser(users: seq<User>, editing: Option<User>, patch: UserPatch, now: nat, isoNow: string): (r: seq<User>)
    ensures editing.None? ==> |r| == |users| + 1 && r[..|users|] == users
    ensures editing.Some? ==> |r| == |users|
    ensures editing.Some? ==> forall i :: 0 <= i < |users| && users[i].id != editing.value.id ==> r[i] == users[i]
    ensures editing.Some? ==> forall i :: 0 <= i < |users| && users[i].id == editing.value.id ==> r[i] == Merge(users[i], patch)
    ensures editing.None? ==> r == SaveNew(users, patch, now, isoNow)
  {
    match editing
    case Some(e) => SaveEdit(users, e.id, patch)
    case None => SaveNew(users, patch, now, isoNow)
  }

  /** Adding a user whose generated id is new and then deleting that id
      gives back the original list. */
  lemma DeleteAfterAdd(users: seq<User>, patch: UserPatch, now: nat, isoNow: string)
    requires forall i :: 0 <= i < |users| ==> users[i].id != Decimal(now)
    ensures DeleteUser(SaveNew(users, patch, now, isoNow), Decimal(now), true) == users
  {
    var p := (u: User) => u.id != Decimal(now);
    KeepAll(users, p);
    var added := SaveNew(users, patch, now, isoNow);
    assert added == users + [NewUser(patch, now, isoNow)];
    KeepAppend(users, [NewUser(patch, now, isoNow)], p);
  }

  /** The search test, for an already lower-cased query. */
  predicate MatchesQuery(u: User, query: string) {
    || Contains(ToLower(u.name), query)
    || Contains(ToLower(u.email), query)
    || Contains(ToLower(RoleName(u.role)), query)
  }

  /** `filteredUsers`: a blank query shows everyone; otherwise the subsequence of
      users whose name, email or role contains the lower-cased query. */
  function SearchUsers(users: seq<User>, searchQuery: string): (r: seq<User>)
    ensures IsBlank(searchQuery) ==> r == users
    ensures IsSubseq(r, users)
    ensures !IsBlank(searchQuery) ==>
      forall u :: u in r <==> u in users && MatchesQuery(u, ToLower(searchQuery))
    ensures !IsBlank(searchQuery) ==>
      forall u :: multiset(r)[u] == if MatchesQuery(u, ToLower(searchQuery)) then multiset(users)[u] else 0
  {
    if IsBlank(searchQuery) then
      SubseqReflexive(users);
      users
    else
      var keep := (u: User) => MatchesQuery(u, ToLower(searchQuery));
      KeepIsSubseq(users, keep);
      assert forall u :: u in Keep(users, keep) <==> u in users && keep(u) by {
        forall u { KeepMembers(users, keep, u); }
      }
      assert forall u :: multiset(Keep(users, keep))[u] == if keep(u) then multiset(users)[u] else 0 by {
        forall u { KeepCount(users, keep, u); }
      }
      Keep(users, keep)
  }

  /** The search ignores the case of the query. */
  lemma SearchCaseInsensitive(users: seq<User>, q1: string, q2: string)
    requires ToLower(q1) == ToLower(q2)
    ensures SearchUsers(users, q1) == SearchUsers(users, q2)
  {
    BlankUnderLower(q1);
    BlankUnderLower(q2);
  }

  /** A query that is only whitespace counts as no query. */
  lemma SearchWhitespaceQuery(users: seq<User>, searchQuery: string)
    requires forall i :: 0 <= i < |searchQuery| ==> IsWhitespace(searchQuery[i])
    ensures SearchUsers(users, searchQuery) == users
  {
    BlankIffAllWhitespace(searchQuery);
  }

  /** The gate in front of the management view. */
  predicate CanManageUsers(current: Option<User>) {
    current.Some? && (current.value.role == SuperAdmin || current.value.role == Admin)
  }

  /** The gate is the access rule with the super admin and admin roles allowed,
      so nobody passes it logged out. */
  lemma ManageGateIsAccessRule(current: Option<User>)
    ensures CanManageUsers(current) <==> Session.CanAccess(current, {SuperAdmin, Admin})
    ensures current.None? ==> !CanManageUsers(current)
  {
  }

  /** Among the demo accounts only the super admin and the admin get in. */
  lemma DemoAccountsGate(i: int)
    requires 0 <= i < |Session.MockUsers|
    ensures CanManageUsers(Some(Session.MockUsers[i])) <==> i <= 1
  {
  }

  /** The five table sections. */
  datatype Section = AdminSection | AccountsSection | ProductionSection | DispatchSection | WorkerSection

  /** Which section a role is listed in; customers are listed in none. */
  function SectionOf(r: Role): Option<Section> {
    match r
    case SuperAdmin => Some(AdminSection)
    case Admin => Some(AdminSection)
    case Accounts => Some(AccountsSection)
    case ProductionManager => Some(ProductionSection)
    case Dispatch => Some(DispatchSection)
    case Worker => Some(WorkerSection)
    case Customer => None
  }

  predicate InAdminGroup(u: User) { u.role == SuperAdmin || u.role == Admin }
  predicate InAccountsGroup(u: User) { u.role == Accounts }
  predicate InProductionGroup(u: User) { u.role == ProductionManager }
  predicate InDispatchGroup(u: User) { u.role == Dispatch }
  predicate InWorkerGroup(u: User) { u.role == Worker }
  predicate IsCustomer(u: User) { u.role == Customer }

  datatype RoleGroups = RoleGroups(
    admins: seq<User>,
    accounts: seq<User>,
    production: seq<User>,
    dispatch: seq<User>,
    workers: seq<User>)
  {
    function Members(s: Section): seq<User> {
      match s
      case AdminSection => admins
      case AccountsSection => accounts
      case ProductionSection => production
      case DispatchSection => dispatch
      case WorkerSection => workers
    }

    function TotalSize(): nat {
      |admins| + |accounts| + |production| + |dispatch| + |workers|
    }
  }

  /** `adminUsers` .. `workerUsers`, each a filter of the filtered list. */
  function GroupByRole(filtered: seq<User>): RoleGroups {
    RoleGroups(
      Keep(filtered, InAdminGroup),
      Keep(filtered, InAccountsGroup),
      Keep(filtered, InProductionGroup),
      Keep(filtered, InDispatchGroup),
      Keep(filtered, InWorkerGroup))
  }

  /** The test that builds a section. */
  function SectionTest(s: Section): (test: User -> bool)
    ensures forall u :: test(u) <==> SectionOf(u.role) == Some(s)
  {
    match s
    case AdminSection => InAdminGroup
    case AccountsSection => InAccountsGroup
    case ProductionSection => InProductionGroup
    case DispatchSection => InDispatchGroup
    case WorkerSection => InWorkerGroup
  }

  /** Each section lists its users in the order of the list. */
  lemma SectionIsSubseq(filtered: seq<User>, s: Section)
    ensures IsSubseq(GroupByRole(filtered).Members(s), filtered)
  {
    KeepIsSubseq(filtered, SectionTest(s));
  }

  /** One section holds every occurrence of the users of its roles and nothing else. */
  lemma SectionMembers(filtered: seq<User>, s: Section, u: User)
    ensures u in GroupByRole(filtered).Members(s) <==> u in filtered && SectionOf(u.role) == Some(s)
    ensures multiset(GroupByRole(filtered).Members(s))[u] ==
      if SectionOf(u.role) == Some(s) then multiset(filtered)[u] else 0
  {
    var test := SectionTest(s);
    assert GroupByRole(filtered).Members(s) == Keep(filtered, test);
    KeepMembers(filtered, test, u);
    KeepCount(filtered, test, u);
  }

  /** The sections split the list by `SectionOf`: a user is in at most one
      section, every listed non-customer is in its own, and no customer is in any. */
  lemma SectionsPartition(filtered: seq<User>, u: User)
    ensures forall s, t :: u in GroupByRole(filtered).Members(s) && u in GroupByRole(filtered).Members(t) ==> s == t
    ensures u in filtered && u.role != Customer ==>
      SectionOf(u.role).Some? && u in GroupByRole(filtered).Members(SectionOf(u.role).value)
    ensures forall s :: u in GroupByRole(filtered).Members(s) ==> u.role != Customer
  {
    forall s {
      SectionMembers(filtered, s, u);
    }
  }

  /** The sections together hold every entry but the customers. */
  lemma {:induction false} GroupSizes(filtered: seq<User>)
    ensures GroupByRole(filtered).TotalSize() + |Keep(filtered, IsCustomer)| == |filtered|
    decreases |filtered|
  {
    if |filtered| > 0 {
      GroupSizes(filtered[1..]);
      var g, g' := GroupByRole(filtered), GroupByRole(filtered[1..]);
      var u := filtered[0];
      assert g.TotalSize() + |Keep(filtered, IsCustomer)|
        == g'.TotalSize() + |Keep(filtered[1..], IsCustomer)| + 1 by {
        match u.role
        case SuperAdmin => assert |g.admins| == |g'.admins| + 1;
        case Admin => assert |g.admins| == |g'.admins| + 1;
        case Accounts => assert |g.accounts| == |g'.accounts| + 1;
        case ProductionManager => assert |g.production| == |g'.production| + 1;
        case Dispatch => assert |g.dispatch| == |g'.dispatch| + 1;
        case Worker => assert |g.workers| == |g'.workers| + 1;
        case Customer => assert |Keep(filtered, IsCustomer)| == |Keep(filtered[1..], IsCustomer)| + 1;
      }
    }
  }

  /** What the view shows: the sections of the search result, each a
      subsequence of the whole list. */
  lemma ShownSectionsAreSubsequences(users: seq<User>, searchQuery: string, s: Section)
    ensures IsSubseq(GroupByRole(SearchUsers(users, searchQuery)).Members(s), users)
  {
    var filtered := SearchUsers(users, searchQuery);
    SectionIsSubseq(filtered, s);
    SubseqTransitive(GroupByRole(filtered).Members(s), filtered, users);
  }
}

=== FILE: users.dfy ===
/** The `User` record shared by the session store and the user-management view. */
module Users {
  import opened Options

  /** The closed set of primary roles. */
  datatype Role = SuperAdmin | Admin | Accounts | ProductionManager | Dispatch | Worker | Customer

  /** The string each role is spelled as in the records and in stored JSON. */
  function RoleName(r: Role): string {
    match r
    case SuperAdmin => "super_admin"
    case Admin => "admin"
    case Accounts => "accounts"
    case ProductionManager => "production_manager"
    case Dispatch => "dispatch"
    case Worker => "worker"
    case Customer => "customer"
  }

  /** Reads a role back from its spelling; any other string is not a role. */
  function RoleFromName(s: string): (r: Option<Role>)
    ensures r.Some? ==> RoleName(r.value) == s
  {
    if s == "super_admin" then Some(SuperAdmin)
    else if s == "admin" then Some(Admin)
    else if s == "accounts" then Some(Accounts)
    else if s == "production_manager" then Some(ProductionManager)
    else if s == "dispatch" then Some(Dispatch)
    else if s == "worker" then Some(Worker)
    else if s == "customer" then Some(Customer)
    else None
  }

  /** Every role's spelling reads back as that role, so spellings are distinct. */
  lemma RoleNameRoundTrip(r: Role)
    ensures RoleFromName(RoleName(r)) == Some(r)
  {
    match r
    case SuperAdmin =>
    case Admin => assert RoleName(r) != "super_admin";
    case Accounts => assert RoleName(r)[1] != "super_admin"[1];
    case ProductionManager => assert RoleName(r)[0] != "super_admin"[0];
    case Dispatch => assert RoleName(r)[0] != "super_admin"[0];
    case Worker => assert RoleName(r)[0] != "super_admin"[0];
    case Customer => assert RoleName(r)[0] != "super_admin"[0];
  }

  /** A user account. `roles` is absent in the authentication table and present,
      as a one-element list, in the user-management list; no access check reads it. */
  datatype User = User(
    id: string,
    email: string,
    name: string,
    role: Role,
    roles: Option<seq<Role>>,
    isActive: bool,
    createdAt: string)
}
